=== FILE: README.md ===
# Deferred-event queue and frame cycle of basic-game-engine

This project models, in Dafny, the scheduling core of the `basic-game-engine`
Rust repository:

- the scheduled event record (`Event` in `src/game_engine/event.rs`, repeated
  as `GameEvent` in `src/game_engine/taskqueue/task.rs`, identical up to the record's name): a name, a
  `u32` count of frames left, and a capture-less `fn()` action, with `dec`;
- the queue over a `Vec` of those records (`src/game_engine/eventqueue.rs`,
  repeated, identical up to the record and trait names, in `src/game_engine/taskqueue/taskqueue.rs`) with
  `remove(name)`, `run_all()` and `prune()`;
- the engine's frame cycle (`src/engine/engine.rs`): `run` starts from an empty
  queue, and each iteration of `main_loop` runs the frame task, `run_all`,
  `prune`, and `end`, which sleeps until 33 333 333 ns after the cycle start.

Files:

- `events.dfy` — modules `Options` and `Events`: the record, declared once as
  `Scheduled<Kind>` with a phantom kind so that `Event` and `GameEvent` stay
  distinct types, the `u32` counter, and `dec`.
- `eventqueue.dfy` — module `EventQueue`: the queue operations, generic in the
  kind, with their properties.
- `taskqueue.dfy` — module `TaskQueue`: the `GameEvent` instantiation.
- `engine.dfy` — module `Engine`: the frame cycle, `run`, and pacing.

The queue is a `seq` and every operation returns the new vector. An action is
kept only as an identity token (`Action`): it takes no arguments and captures
nothing, and `run_all` holds the only mutable borrow of the vector while it
runs, so an action cannot change the queue. The frame task receives
`&mut Engine`, and the only engine state it can change is the event queue, so
it is a function from the queue to the queue it leaves plus its
`Result<(), String>`.

## How `prune` really behaves

`prune` loops over `n in 0..self.len()` (the length fixed at entry) and, when
the event at slot `n` has zero frames, calls `self.remove(n)`. With an index
argument that call resolves to `Vec`'s own `remove(usize)`, which shifts every
later element one slot left. It does not resolve to the by-name swap-remove of
the queue trait: inherent methods win method resolution, and only the `usize`
signature type-checks. The loop then moves on to slot `n + 1`, so the element
that slid into slot `n` is never looked at. `EventQueue.Prune` is this
behaviour as a recursive function, and `EventQueue.PruneLoop` is the index loop
proved equal to it. Consequences proved here:

- every event with frames left is kept, in order (`Live` of the result equals
  `Live` of the input, and the result is a subsequence of the input);
- by the definition of `Prune` (and `EventQueue.PruneDropsFirstZero`), when an
  expired event is removed, its successor slides into its slot and is kept
  without being examined, even if it is expired too. The result is free of
  expired events if and only if the input had no two adjacent expired events
  (`EventQueue.PruneLeavesLiveIff`);
- `prune` is therefore not idempotent: `[0, 0]` becomes `[0]`, then `[]`;
- the queue a cycle leaves is free of expired events exactly when no two
  adjacent events entered `run_all` on their last frame (`Engine.Cycle`). The
  next cycle runs its task first, and the task may change the queue. If that
  task leaves the queue unchanged, the next `run_all` is safe exactly when
  there were no such adjacent events, and decrements a zero counter when there
  were. `Engine.AdjacentLastFramesPanic`
  shows this with two events that each have one frame.

One might expect `prune` to re-examine the element moved into a vacated
slot, to be idempotent, and to remove every event that entered its last frame.
The code does not always do these things (see `EventQueue.PruneLeavesLiveIff`),
and the model follows the code.

## Model

| member | source | states |
|---|---|---|
| `Events.Dec` | src/game_engine/event.rs:9-11 | needs at least one frame left (plain `u32` subtraction); the result has exactly one frame fewer, the same name and the same action |
| `Events.DecChecked` | src/game_engine/event.rs:10 | the checked `u32` subtraction fails exactly when the counter is already zero; otherwise it yields one frame fewer with name and action kept |
| `Events.DecCheckedAgrees` | src/game_engine/event.rs:10 | the checked decrement succeeds exactly where `Dec`'s precondition holds, and agrees with `Dec` there |
| `EventQueue.Position` | src/game_engine/eventqueue.rs:11 | no index exactly when no event carries the name; otherwise the index of an event with that name that no earlier event shares |
| `EventQueue.SwapRemove` | src/game_engine/eventqueue.rs:13 | one element shorter; the former last element fills the vacated slot unless the removed one was last; every other slot is unchanged; the multiset loses exactly the removed element |
| `EventQueue.Remove` | src/game_engine/eventqueue.rs:10-15 | an absent name leaves the vector unchanged; a present name shortens it by exactly one, removing only the first match, whose slot is filled by the former last element while all other slots keep their events |
| `EventQueue.RemoveKeepsLaterNamesakes` | src/game_engine/eventqueue.rs:11-13 | a later event with the same name as the first match is still in the vector after `remove`, so the name is still present |
| `EventQueue.RunAll` | src/game_engine/eventqueue.rs:17-22 | needs every event to have a frame left; keeps length, order, names and actions and takes exactly one frame off every event |
| `EventQueue.Fired` | src/game_engine/eventqueue.rs:18-19 | the actions called are those of the events in the vector, one per event, in slot order |
| `EventQueue.RunAllTimes` | src/game_engine/eventqueue.rs:17-22 | after `k` passes with no prune, each event has exactly `k` frames fewer, with name, action and slot unchanged |
| `EventQueue.RunAllAdjacentZeros` | src/game_engine/eventqueue.rs:17-22 | two adjacent expired events after `run_all` occur exactly when two adjacent events entered on their last frame |
| `EventQueue.Prune` | src/game_engine/eventqueue.rs:24-33 | `prune` never makes the vector longer |
| `EventQueue.PruneKeepsLiveInOrder` | src/game_engine/eventqueue.rs:24-33 | the result of `prune` is an order-preserving subsequence of the input, with exactly the same live events in the same order, so no event with frames left is removed |
| `EventQueue.Get` | src/game_engine/eventqueue.rs:26 | yields an element exactly for slots inside the current length, and that element is the one in the slot |
| `EventQueue.RemoveAt` | src/game_engine/eventqueue.rs:29 | the inherent `Vec::remove`: one shorter, earlier slots unchanged, later elements shifted one slot left |
| `EventQueue.PruneLoop` | src/game_engine/eventqueue.rs:24-33 | the index loop over the original length, with `get` and shifting `remove`, computes the recursive `Prune` |
| `EventQueue.PruneOfLiveIsIdentity` | src/game_engine/eventqueue.rs:24-33 | on a vector with no expired event, `prune` changes nothing |
| `EventQueue.PruneWithoutAdjacentZeros` | src/game_engine/eventqueue.rs:25-33 | with no two adjacent expired events, `prune` removes every expired event and only those |
| `EventQueue.PruneWithAdjacentZeros` | src/game_engine/eventqueue.rs:25-30 | with two adjacent expired events, `prune` leaves an expired event behind, because the element shifted into a vacated slot is skipped |
| `EventQueue.PruneLeavesLiveIff` | src/game_engine/eventqueue.rs:24-33 | the result of `prune` is safe for the next `run_all` if and only if the input had no two adjacent expired events |
| `EventQueue.PruneIdempotentWithoutAdjacentZeros` | src/game_engine/eventqueue.rs:24-33 | with no two adjacent expired events, a second `prune` changes nothing |
| `EventQueue.PruneNotIdempotent` | src/game_engine/eventqueue.rs:25-30 | two adjacent expired events: the first `prune` keeps the second one, and only another `prune` removes it |
| `TaskQueue.Dec` | src/game_engine/taskqueue/task.rs:9-11 | `GameEvent::dec` needs a frame left and takes exactly one off, with name and action unchanged |
| `TaskQueue.Remove` | src/game_engine/taskqueue/taskqueue.rs:10-15 | absent name: no change; present name: only the first match is swap-removed and the length drops by one |
| `TaskQueue.RunAll` | src/game_engine/taskqueue/taskqueue.rs:17-22 | needs every counter at one or more; takes exactly one frame off every event and changes nothing else |
| `TaskQueue.Prune` | src/game_engine/taskqueue/taskqueue.rs:24-33 | keeps every live `GameEvent` in original relative order, and leaves an expired one behind exactly when two expired events were adjacent |
| `Engine.RunTask` | src/engine/engine.rs:40-45 | the task's changes to the queue stand whatever it returns; an `Err(msg)` prints exactly `msg`, an `Ok` prints nothing |
| `Engine.End` | src/engine/engine.rs:47-53 | sleeps exactly when the deadline `start + FRAME_DURATION` is not past, and then for exactly the time left until it |
| `Engine.CycleLength` | src/engine/engine.rs:47-53 | a cycle ends one frame duration after its start, or when its work ends if that was later |
| `Engine.EndIgnoresHistory` | src/engine/engine.rs:47-53 | pacing depends only on the time elapsed in the current cycle, so an overrun is never made up later |
| `Engine.FirstExpired` | src/game_engine/eventqueue.rs:18-20 | the slot at which `run_all` decrements an expired counter: an expired event with every event before it live |
| `Engine.Cycle` | src/engine/engine.rs:27-38 | completes exactly when every event left by the task has a frame left. It then fires the actions of the task's queue in order, and its exit queue is an order-preserving subsequence of that queue after `run_all`, with the same live events. That exit queue is fully live exactly when no two adjacent events were on their last frame. Otherwise the cycle stops at the first expired event, after calling the actions up to and including that event. In both cases an `Err(msg)` from the task prints exactly `msg` and an `Ok` prints nothing. A completed cycle ends with `end`'s pace: it sleeps exactly when the work finished by `start + FRAME_DURATION`, and then until that deadline |
| `Engine.TaskErrorIsSwallowed` | src/engine/engine.rs:40-45 | a failing task changes only what is printed: `run_all`, `prune` and pacing run exactly as for a succeeding task that leaves the same queue |
| `Engine.IdleCycle` | src/engine/engine.rs:31-34 | when the task leaves an all-live queue unchanged, the cycle completes, survivors keep their order, and every event that entered with two or more frames survives with one frame fewer |
| `Engine.Simulate` | src/engine/engine.rs:27-38 | cycles follow one another, each starting from the queue the previous one left, until a cycle panics |
| `Engine.Run` | src/engine/engine.rs:18-25 | the first cycle starts from an empty queue |
| `Engine.RunIdle` | src/engine/engine.rs:18-37 | a scenario: with a task that never touches the queue, every cycle completes, leaves the queue empty, fires nothing and prints nothing, because `run` starts from an empty queue |
| `Engine.CountdownScenario` | src/engine/engine.rs:27-38 | events with one, two and three frames lose one frame per cycle and are gone in the order they run out; the queue is empty after three cycles |
| `Engine.AdjacentLastFramesPanic` | src/engine/engine.rs:27-38 | two adjacent events with one frame each: the first cycle keeps the second with zero frames, and the next cycle panics in `run_all` after calling its action |

## Left out

- `src/engine/event.rs` and `src/engine/eventqueue.rs`, the copies the binary compiles, are not part of this model. The engine model uses the `src/game_engine/` copies instead; the two `src/game_engine/` copies are identical up to the record and trait names.
- Wall-clock time: each `SystemTime::now()` reading is an integer nanosecond parameter, and `thread::sleep` is the `Pace` a cycle returns. How precisely the OS sleeps is not modelled.
- `println!` output is the list of printed lines. The bodies of the `fn()` actions are opaque side effects, and an action is only an identity token.
- The frame task is a pure function of the queue it is handed. A real task can also read process-wide state, which the model does not represent.
- The endless `loop` of `main_loop` is modelled for as many cycles as clock readings are supplied.
- `u32` underflow in `dec` is modelled as a debug-build panic (`DecChecked`, and the `Underflow` outcome of a cycle). Release builds would wrap the counter to 4294967295 instead; that behaviour is not modelled.
- `src/game_engine/engine.rs` (winit, wasm and logging set-up; its `main_loop` repeats the modelled one without the `loop`, over `GameEvent`s, with an extra `println!` at line 141), `src/vulkano_tutorial.rs`, `src/game_engine/graphics/graphics_state.rs`, `src/game_engine/renderer.rs`, `src/game_engine/game_window.rs`, `src/game_engine/mod.rs` and `src/main.rs` are graphics, windowing or entry-point plumbing with no scheduling logic.

=== FILE: engine.dfy ===
/**
 The engine's frame cycle (`src/engine/engine.rs`): run the task, run every
 queued event, prune the expired ones, then sleep until the frame deadline.

 Wall-clock readings are integer nanosecond parameters, `thread::sleep` is the
 `Pace` a cycle ends with, and `println!` is the list of lines a cycle prints.
 */
module Engine {
  import opened Options
  import opened Events
  import opened EventQueue

  /** `FRAME_DURATION`: one frame at a nominal 30 Hz, in nanoseconds. */
  const FrameDuration: nat := 33_333_333

  /** The `Result<(), String>` the frame task returns. */
  datatype TaskResult = Ok | Err(msg: string)

  /** One call of the frame task. The task gets `&mut Engine`, and the only
      state of the engine it can change is the event queue. */
  datatype TaskOutcome = TaskOutcome(queue: seq<Event>, result: TaskResult)

  /** The frame task, as a function of the queue it is handed. */
  type Task = seq<Event> -> TaskOutcome

  /** The two `SystemTime::now()` readings of a cycle: at its start, and inside
      `end` after `prune`. */
  datatype Clock = Clock(start: int, now: int)

  /** What `end` does: sleep for `ns` nanoseconds, or return at once. */
  datatype Pace = Sleep(ns: nat) | NoSleep

  /** Everything a completed cycle produces. */
  datatype Report = Report(queue: seq<Event>, printed: seq<string>, fired: seq<Action>, pace: Pace)

  /** A cycle either completes, or panics inside `run_all` when it decrements an
      expired event (a debug build's `u32` underflow check). */
  datatype CycleOutcome =
    | Completed(report: Report)
    | Underflow(printed: seq<string>, fired: seq<Action>)

  /** `run_task`: the task's queue changes stand whatever it returns; an
      `Err(msg)` is printed and otherwise ignored. */
  function RunTask(task: Task, q: seq<Event>): (r: (seq<Event>, seq<string>))
    ensures r.0 == task(q).queue
    ensures task(q).result.Ok? <==> r.1 == []
    ensures task(q).result.Err? ==> r.1 == [task(q).result.msg]
  {
    var out := task(q);
    match out.result
    case Ok => (out.queue, [])
    case Err(msg) => (out.queue, [msg])
  }

  /** `end`: sleep until `start + FRAME_DURATION` if that deadline has not
      passed; otherwise go straight on with nothing owed to later cycles. */
  function End(start: int, now: int): (p: Pace)
    ensures p.Sleep? <==> now <= start + FrameDuration
    ensures p.Sleep? ==> now + p.ns == start + FrameDuration
  {
    var deadline := start + FrameDuration;
    if deadline - now >= 0 then Sleep(deadline - now) else NoSleep
  }

  /** The time at which `end` returns. */
  function Finish(c: Clock): int
  {
    match End(c.start, c.now)
    case Sleep(ns) => c.now + ns
    case NoSleep => c.now
  }

  /** A cycle lasts a whole frame, or as long as its work took when that was
      longer. */
  lemma CycleLength(c: Clock)
    ensures c.now <= c.start + FrameDuration ==> Finish(c) - c.start == FrameDuration
    ensures c.now > c.start + FrameDuration ==> Finish(c) - c.start == c.now - c.start
  {
  }

  /** `end` looks only at how long this cycle has taken so far: shifting both
      readings by the same amount changes nothing, so an overrun in one cycle
      is never made up in a later one. */
  lemma EndIgnoresHistory(start: int, now: int, shift: int)
    ensures End(start + shift, now + shift) == End(start, now)
  {
  }

  /** The slot of the first expired event, where `run_all` panics. */
  function FirstExpired(q: seq<Event>): (k: nat)
    requires !AllLive(q)
    ensures k < |q| && q[k].frames == 0
    ensures AllLive(q[..k])
  {
    if q[0].frames == 0 then 0
    else
      var k := FirstExpired(q[1..]);
      assert q[..k + 1] == [q[0]] + q[1..][..k];
      k + 1
  }

  /** One iteration of `main_loop`: task, `run_all`, `prune`, `end`. Whatever
      the task returns, its `Err` message is printed and the cycle goes on. */
  function Cycle(q: seq<Event>, task: Task, clock: Clock): (c: CycleOutcome)
    ensures c.Completed? <==> AllLive(task(q).queue)
    ensures var printed := if c.Completed? then c.report.printed else c.printed;
            && (task(q).result.Ok? ==> printed == [])
            && (task(q).result.Err? ==> printed == [task(q).result.msg])
    ensures c.Completed? ==>
              && c.report.pace == End(clock.start, clock.now)
              && (c.report.pace.Sleep? <==> clock.now <= clock.start + FrameDuration)
              && (c.report.pace.Sleep? ==> clock.now + c.report.pace.ns == clock.start + FrameDuration)
    ensures c.Completed? ==>
              var entered := task(q).queue;
              && c.report.fired == Fired(entered)
              && SubSeq(c.report.queue, RunAll(entered))
              && Live(c.report.queue) == Live(RunAll(entered))
              && (AllLive(c.report.queue) <==> !AdjacentLastFrames(entered))
    ensures c.Underflow? ==>
              var entered := task(q).queue;
              && 0 < |c.fired| <= |entered|
              && c.fired == Fired(entered[..|c.fired|])
              && entered[|c.fired| - 1].frames == 0
              && AllLive(entered[..|c.fired| - 1])
  {
    var (entered, printed) := RunTask(task, q);
    if AllLive(entered) then
      var ran := RunAll(entered);
      RunAllAdjacentZeros(entered);
      PruneKeepsLiveInOrder(ran);
      PruneLeavesLiveIff(ran);
      Completed(Report(Prune(ran), printed, Fired(entered), End(clock.start, clock.now)))
    else
      var k := FirstExpired(entered);
      Underflow(printed, Fired(entered[..k + 1]))
  }

  /** A failing task is only printed: the rest of the cycle does exactly what
      it would have done had the task succeeded with the same queue. */
  lemma TaskErrorIsSwallowed(q: seq<Event>, failing: Task, succeeding: Task, clock: Clock)
    requires failing(q).result.Err? && succeeding(q).result.Ok?
    requires failing(q).queue == succeeding(q).queue
    ensures Cycle(q, failing, clock).Completed? == Cycle(q, succeeding, clock).Completed?
    ensures Cycle(q, failing, clock).Completed? ==>
              Cycle(q, failing, clock).report
              == Cycle(q, succeeding, clock).report.(printed := [failing(q).result.msg])
    ensures Cycle(q, failing, clock).Underflow? ==>
              Cycle(q, failing, clock).fired == Cycle(q, succeeding, clock).fired
  {
  }

  /** A cycle whose task leaves the queue alone: every event runs once and is
      decremented, the survivors keep their order, and an event that entered
      with two or more frames survives. */
  lemma IdleCycle(q: seq<Event>, task: Task, clock: Clock, i: nat)
    requires task(q).queue == q && AllLive(q)
    requires i < |q| && q[i].frames >= 2
    ensures Cycle(q, task, clock).Completed?
    ensures SubSeq(Cycle(q, task, clock).report.queue, RunAll(q))
    ensures Dec(q[i]) in Cycle(q, task, clock).report.queue
  {
    var ran := RunAll(q);
    var out := Cycle(q, task, clock).report.queue;
    assert ran[i] == Dec(q[i]);
    LiveMembers(ran, ran[i]);
    LiveMembers(out, ran[i]);
  }

  /**
   `run` followed by `main_loop`, for as many cycles as there are clock
   readings: each cycle starts from the queue the previous one left, and a
   panic ends the process.
   */
  function Simulate(q: seq<Event>, task: Task, clocks: seq<Clock>): (trace: seq<CycleOutcome>)
    ensures |trace| <= |clocks|
    ensures forall i :: 0 <= i < |trace| - 1 ==> trace[i].Completed?
    ensures |trace| < |clocks| ==> |trace| > 0 && trace[|trace| - 1].Underflow?
    ensures |clocks| > 0 ==> |trace| > 0 && trace[0] == Cycle(q, task, clocks[0])
    ensures forall i :: 0 <= i < |trace| - 1 ==>
              trace[i + 1] == Cycle(trace[i].report.queue, task, clocks[i + 1])
    decreases |clocks|
  {
    if |clocks| == 0 then []
    else
      match Cycle(q, task, clocks[0])
      case Completed(rep) => [Completed(rep)] + Simulate(rep.queue, task, clocks[1..])
      case Underflow(printed, fired) => [Underflow(printed, fired)]
  }

  /** `run`: the first cycle starts from an empty queue. */
  function Run(task: Task, clocks: seq<Clock>): (trace: seq<CycleOutcome>)
    ensures |clocks| > 0 ==> |trace| > 0 && trace[0] == Cycle([], task, clocks[0])
  {
    Simulate([], task, clocks)
  }

  /** A task that never touches the queue and always succeeds: every cycle
      completes with an empty queue, fires nothing and prints nothing. */
  lemma {:induction false} RunIdle(task: Task, clocks: seq<Clock>)
    requires forall q :: task(q) == TaskOutcome(q, Ok)
    ensures |Run(task, clocks)| == |clocks|
    ensures forall i :: 0 <= i < |clocks| ==>
              && Run(task, clocks)[i].Completed?
              && Run(task, clocks)[i].report.queue == []
              && Run(task, clocks)[i].report.fired == []
              && Run(task, clocks)[i].report.printed == []
  {
    var trace := Run(task, clocks);
    if |clocks| > 0 {
      IdleFromEmpty(task, clocks);
    }
  }

  /** Induction for `RunIdle`, over the remaining clock readings. */
  lemma {:induction false} IdleFromEmpty(task: Task, clocks: seq<Clock>)
    requires forall q :: task(q) == TaskOutcome(q, Ok)
    ensures |Simulate([], task, clocks)| == |clocks|
    ensures forall i :: 0 <= i < |clocks| ==>
              && Simulate([], task, clocks)[i].Completed?
              && Simulate([], task, clocks)[i].report.queue == []
              && Simulate([], task, clocks)[i].report.fired == []
              && Simulate([], task, clocks)[i].report.printed == []
    decreases |clocks|
  {
    if |clocks| > 0 {
      var c := Cycle([], task, clocks[0]);
      assert task([]) == TaskOutcome([], Ok);
      assert c.Completed? && c.report.queue == [] && c.report.fired == [] && c.report.printed == [];
      IdleFromEmpty(task, clocks[1..]);
    }
  }

  /** Events with one, two and three frames under a task that leaves the queue
      alone: each cycle takes one frame off every event and prunes the one that
      ran out, until the queue is empty. */
  lemma CountdownScenario(task: Task, clocks: seq<Clock>)
    requires forall q :: task(q) == TaskOutcome(q, Ok)
    requires |clocks| == 3
    ensures var a: Event := Scheduled("A", 1, Action(0));
            var b: Event := Scheduled("B", 2, Action(1));
            var c: Event := Scheduled("C", 3, Action(2));
            var trace := Simulate([a, b, c], task, clocks);
            && |trace| == 3
            && trace[0].Completed? && trace[0].report.queue == [b.(frames := 1), c.(frames := 2)]
            && trace[1].Completed? && trace[1].report.queue == [c.(frames := 1)]
            && trace[2].Completed? && trace[2].report.queue == []
  {
    var a: Event := Scheduled("A", 1, Action(0));
    var b: Event := Scheduled("B", 2, Action(1));
    var c: Event := Scheduled("C", 3, Action(2));
    var q1 := [b.(frames := 1), c.(frames := 2)];
    var q2 := [c.(frames := 1)];
    assert task([a, b, c]) == TaskOutcome([a, b, c], Ok);
    var ran := [a.(frames := 0), b.(frames := 1), c.(frames := 2)];
    assert RunAll([a, b, c]) == ran;
    assert ran[2..] == [c.(frames := 2)];
    assert Prune(ran) == q1;
    assert Cycle([a, b, c], task, clocks[0]).report.queue == q1;
    assert task(q1) == TaskOutcome(q1, Ok);
    assert RunAll(q1) == [b.(frames := 0), c.(frames := 1)];
    assert Cycle(q1, task, clocks[1]).report.queue == q2;
    assert task(q2) == TaskOutcome(q2, Ok);
    assert RunAll(q2) == [c.(frames := 0)];
    assert Cycle(q2, task, clocks[2]).report.queue == [];
  }

  /** Two neighbouring events on their last frame: the cycle prunes only the
      first, and the next cycle panics on the second as soon as it has run
      its action. */
  lemma AdjacentLastFramesPanic(task: Task, clocks: seq<Clock>)
    requires forall q :: task(q) == TaskOutcome(q, Ok)
    requires |clocks| == 2
    ensures var a: Event := Scheduled("A", 1, Action(0));
            var b: Event := Scheduled("B", 1, Action(1));
            var trace := Simulate([a, b], task, clocks);
            && |trace| == 2
            && trace[0].Completed? && trace[0].report.queue == [b.(frames := 0)]
            && trace[1].Underflow? && trace[1].fired == [b.task]
  {
    var a: Event := Scheduled("A", 1, Action(0));
    var b: Event := Scheduled("B", 1, Action(1));
    var q1 := [b.(frames := 0)];
    assert task([a, b]) == TaskOutcome([a, b], Ok);
    assert RunAll([a, b]) == [a.(frames := 0), b.(frames := 0)];
    assert Cycle([a, b], task, clocks[0]).report.queue == q1;
    assert task(q1) == TaskOutcome(q1, Ok);
    assert !AllLive(q1);
    assert FirstExpired(q1) == 0;
    assert q1[..1] == q1;
  }
}

=== FILE: eventqueue.dfy ===
/**
 The event queue: a `Vec` of scheduled events with `remove`, `run_all` and `prune`.

 A `Vec` is a `seq` here and every operation returns the new vector. The queue
 is generic in the record's kind, so the same definitions serve `Vec<Event>`
 and `Vec<GameEvent>`.
 */
module EventQueue {
  import opened Options
  import opened Events

  // ---------------------------------------------------------------------------
  // Vocabulary
  // ---------------------------------------------------------------------------

  /** No event of `q` carries `name`. */
  predicate Absent<K>(q: seq<Scheduled<K>>, name: string)
  {
    forall i :: 0 <= i < |q| ==> q[i].name != name
  }

  /** `i` is the slot of the first event of `q` named `name`. */
  predicate IsFirstMatch<K>(q: seq<Scheduled<K>>, name: string, i: nat)
  {
    i < |q| && q[i].name == name && Absent(q[..i], name)
  }

  /** Every event still has a frame to run, so `dec` cannot underflow. */
  predicate AllLive<K>(q: seq<Scheduled<K>>)
  {
    forall i :: 0 <= i < |q| ==> q[i].frames >= 1
  }

  /** Some two neighbouring events have both run out of frames. */
  predicate AdjacentZeros<K>(q: seq<Scheduled<K>>)
  {
    exists i :: 0 <= i < |q| - 1 && q[i].frames == 0 && q[i + 1].frames == 0
  }

  /** Some two neighbouring events are on their last frame, so one `run_all`
      turns them into two adjacent expired events. */
  predicate AdjacentLastFrames<K>(q: seq<Scheduled<K>>)
  {
    exists i :: 0 <= i < |q| - 1 && q[i].frames == 1 && q[i + 1].frames == 1
  }

  /** `a` is `b` with some elements dropped and the rest in their original order. */
  predicate SubSeq<T(==)>(a: seq<T>, b: seq<T>)
    decreases |b|
  {
    if |a| == 0 then true
    else if |b| == 0 then false
    else (a[0] == b[0] && SubSeq(a[1..], b[1..])) || SubSeq(a, b[1..])
  }

  /** The reference filter: the events of `q` that still have frames, in order. */
  function Live<K>(q: seq<Scheduled<K>>): (r: seq<Scheduled<K>>)
    ensures AllLive(r)
  {
    if |q| == 0 then []
    else if q[0].frames == 0 then Live(q[1..])
    else [q[0]] + Live(q[1..])
  }

  /** The reference filter keeps exactly the live events: an event with frames
      left is kept, and nothing is kept that was not in the input. */
  lemma {:induction false} LiveMembers<K>(q: seq<Scheduled<K>>, e: Scheduled<K>)
    ensures e in Live(q) <==> e in q && e.frames >= 1
  {
    if |q| > 0 {
      LiveMembers(q[1..], e);
      assert q == [q[0]] + q[1..];
    }
  }

  // ---------------------------------------------------------------------------
  // remove(name)
  // ---------------------------------------------------------------------------

  /** `iter().position(|event| event.name == name)`. */
  function Position<K>(q: seq<Scheduled<K>>, name: string): (r: Option<nat>)
    ensures r.None? <==> Absent(q, name)
    ensures r.Some? ==> IsFirstMatch(q, name, r.value)
  {
    if |q| == 0 then None
    else if q[0].name == name then Some(0)
    else
      match Position(q[1..], name)
      case None => None
      case Some(i) =>
        assert q[..i + 1] == [q[0]] + q[1..][..i];
        Some(i + 1)
  }

  /** `Vec::swap_remove(i)`: the last element moves into slot `i`. */
  function SwapRemove<T>(q: seq<T>, i: nat): (r: seq<T>)
    requires i < |q|
    ensures |r| == |q| - 1
    ensures forall j :: 0 <= j < |r| && j != i ==> r[j] == q[j]
    ensures i < |r| ==> r[i] == q[|q| - 1]
    ensures multiset(r) + multiset{q[i]} == multiset(q)
  {
    var last := |q| - 1;
    if i == last then
      assert q == q[..i] + [q[i]];
      q[..i]
    else
      assert q == q[..i] + [q[i]] + q[i + 1..last] + [q[last]];
      q[..i] + [q[last]] + q[i + 1..last]
  }

  /** `remove(name)`: swap-removes the first event named `name`, if any. */
  function Remove<K>(q: seq<Scheduled<K>>, name: string): (r: seq<Scheduled<K>>)
    ensures Absent(q, name) ==> r == q
    ensures !Absent(q, name) ==> |r| == |q| - 1
    ensures forall i: nat :: IsFirstMatch(q, name, i) ==>
              && multiset(r) + multiset{q[i]} == multiset(q)
              && (forall j :: 0 <= j < |r| && j != i ==> r[j] == q[j])
              && (i < |r| ==> r[i] == q[|q| - 1])
  {
    match Position(q, name)
    case None => q
    case Some(i) =>
      FirstMatchUnique(q, name, i);
      SwapRemove(q, i)
  }

  /** There is only one first match. */
  lemma FirstMatchUnique<K>(q: seq<Scheduled<K>>, name: string, i: nat)
    requires IsFirstMatch(q, name, i)
    ensures forall j: nat :: IsFirstMatch(q, name, j) ==> j == i
  {
  }

  /** Only the first match goes: an event after it with the same name survives. */
  lemma RemoveKeepsLaterNamesakes<K>(q: seq<Scheduled<K>>, name: string, i: nat, j: nat)
    requires IsFirstMatch(q, name, i)
    requires i < j < |q| && q[j].name == name
    ensures q[j] in Remove(q, name)
    ensures !Absent(Remove(q, name), name)
  {
  }

  // ---------------------------------------------------------------------------
  // run_all()
  // ---------------------------------------------------------------------------

  /** `run_all`: every event is decremented once, in place. */
  function RunAll<K>(q: seq<Scheduled<K>>): (r: seq<Scheduled<K>>)
    requires AllLive(q)
    ensures |r| == |q|
    ensures forall i :: 0 <= i < |q| ==>
              && r[i].frames as int == q[i].frames as int - 1
              && r[i].name == q[i].name
              && r[i].task == q[i].task
  {
    if |q| == 0 then [] else [Dec(q[0])] + RunAll(q[1..])
  }

  /** The actions `run_all` calls, in the order it calls them. */
  function Fired<K>(q: seq<Scheduled<K>>): (r: seq<Action>)
    ensures |r| == |q|
    ensures forall i :: 0 <= i < |q| ==> r[i] == q[i].task
  {
    if |q| == 0 then [] else [q[0].task] + Fired(q[1..])
  }

  /** Adjacent expired events after `run_all` come exactly from adjacent events
      that entered it on their last frame. */
  lemma RunAllAdjacentZeros<K>(q: seq<Scheduled<K>>)
    requires AllLive(q)
    ensures AdjacentZeros(RunAll(q)) <==> AdjacentLastFrames(q)
  {
  }

  /** `k` passes of `run_all` with no prune in between. */
  function RunAllTimes<K>(q: seq<Scheduled<K>>, k: nat): (r: seq<Scheduled<K>>)
    requires forall i :: 0 <= i < |q| ==> q[i].frames as int >= k
    ensures |r| == |q|
    ensures forall i :: 0 <= i < |q| ==>
              && r[i].frames as int == q[i].frames as int - k
              && r[i].name == q[i].name
              && r[i].task == q[i].task
    decreases k
  {
    if k == 0 then q else RunAllTimes(RunAll(q), k - 1)
  }

  // ---------------------------------------------------------------------------
  // prune()
  // ---------------------------------------------------------------------------

  /**
   `prune` as the source executes it. The loop walks the slots `0..len` of the
   original length; a zero-frame event at slot `n` is removed with `Vec`'s
   shift-left `remove(n)`, so its successor lands in slot `n` and the next
   iteration (slot `n + 1`) never looks at it.
   */
  function Prune<K>(q: seq<Scheduled<K>>): (r: seq<Scheduled<K>>)
    ensures |r| <= |q|
    decreases |q|
  {
    if |q| == 0 then []
    else if |q| == 1 then (if q[0].frames == 0 then [] else q)
    else if q[0].frames == 0 then
      assert q[2..] == q[1..][1..];
      [q[1]] + Prune(q[2..])
    else
      [q[0]] + Prune(q[1..])
  }

  /** `prune` keeps the live events of its input, in their original order,
      and never adds anything: its result is an order-preserving subsequence
      of the input with the same live events. */
  lemma {:induction false} PruneKeepsLiveInOrder<K>(q: seq<Scheduled<K>>)
    ensures SubSeq(Prune(q), q)
    ensures Live(Prune(q)) == Live(q)
    decreases |q|
  {
    var r := Prune(q);
    if |q| == 1 {
      assert Live(q) == if q[0].frames == 0 then [] else q;
    } else if |q| >= 2 {
      if q[0].frames == 0 {
        var rest := q[2..];
        PruneKeepsLiveInOrder(rest);
        assert q[1..][1..] == rest;
        assert r == [q[1]] + Prune(rest);
        assert r[1..] == Prune(rest);
        assert SubSeq(r, q[1..]);
        assert Live(r) == Live([q[1]] + rest) by {
          assert ([q[1]] + rest)[1..] == rest;
        }
        assert q[1..] == [q[1]] + rest;
      } else {
        PruneKeepsLiveInOrder(q[1..]);
        assert r[1..] == Prune(q[1..]);
      }
    }
  }

  /** `self.get(n)`. */
  function Get<T>(v: seq<T>, n: nat): (r: Option<T>)
    ensures r.Some? <==> n < |v|
    ensures r.Some? ==> r.value == v[n]
  {
    if n < |v| then Some(v[n]) else None
  }

  /** `Vec::remove(n)`, the inherent method `prune` resolves to: later elements
      shift one slot left and keep their order. */
  function RemoveAt<T>(v: seq<T>, n: nat): (r: seq<T>)
    requires n < |v|
    ensures |r| == |v| - 1
    ensures forall j :: 0 <= j < n ==> r[j] == v[j]
    ensures forall j :: n <= j < |r| ==> r[j] == v[j + 1]
  {
    v[..n] + v[n + 1..]
  }

  /** The index loop of `prune`, proved to compute the recursive `Prune`. */
  method PruneLoop<K>(q: seq<Scheduled<K>>) returns (v: seq<Scheduled<K>>)
    ensures v == Prune(q)
  {
    v := q;
    var len := |q|;
    for n := 0 to len
      invariant |v| <= |q|
      invariant n <= |v| ==> v[..n] + Prune(v[n..]) == Prune(q)
      invariant n > |v| ==> v == Prune(q)
    {
      match Get(v, n)
      case None =>
      case Some(event) =>
        if event.frames == 0 {
          PruneStepRemove(v, n);
          v := RemoveAt(v, n);
        } else {
          PruneStepKeep(v, n);
        }
    }
    assert v[..|v|] == v;
  }

  /** Loop step of `PruneLoop` when slot `n` is removed. */
  lemma PruneStepRemove<K>(v: seq<Scheduled<K>>, n: nat)
    requires n < |v| && v[n].frames == 0
    ensures n + 1 <= |RemoveAt(v, n)| ==>
              RemoveAt(v, n)[..n + 1] + Prune(RemoveAt(v, n)[n + 1..]) == v[..n] + Prune(v[n..])
    ensures n + 1 > |RemoveAt(v, n)| ==> RemoveAt(v, n) == v[..n] + Prune(v[n..])
  {
    if n + 1 < |v| {
      PruneStepRemoveInner(v, n, RemoveAt(v, n));
    } else {
      assert v[n..] == [v[n]];
    }
  }

  /** `PruneStepRemove` when slot `n` has a successor. */
  lemma PruneStepRemoveInner<K>(v: seq<Scheduled<K>>, n: nat, w: seq<Scheduled<K>>)
    requires n + 1 < |v| && v[n].frames == 0
    requires w == v[..n] + v[n + 1..]
    ensures w[..n + 1] + Prune(w[n + 1..]) == v[..n] + Prune(v[n..])
  {
    var s := v[n..];
    PruneDropsFirstZero(s);
    assert s[1] == v[n + 1];
    assert s[2..] == v[n + 2..];
    assert w[..n + 1] == v[..n] + [v[n + 1]];
    assert w[n + 1..] == v[n + 2..];
  }

  /** An expired head is dropped and its successor is kept unexamined. */
  lemma PruneDropsFirstZero<K>(q: seq<Scheduled<K>>)
    requires |q| >= 2 && q[0].frames == 0
    ensures Prune(q) == [q[1]] + Prune(q[2..])
  {
  }

  /** Loop step of `PruneLoop` when slot `n` is kept. */
  lemma PruneStepKeep<K>(v: seq<Scheduled<K>>, n: nat)
    requires n < |v| && v[n].frames != 0
    ensures v[..n + 1] + Prune(v[n + 1..]) == v[..n] + Prune(v[n..])
  {
  }

  // ---------------------------------------------------------------------------
  // Properties of prune
  // ---------------------------------------------------------------------------

  /** On a queue with no expired event, `prune` changes nothing. */
  lemma {:induction false} PruneOfLiveIsIdentity<K>(q: seq<Scheduled<K>>)
    requires AllLive(q)
    ensures Prune(q) == q
    decreases |q|
  {
    if |q| >= 2 {
      PruneOfLiveIsIdentity(q[1..]);
      assert q == [q[0]] + q[1..];
    }
  }

  /** With no two expired events side by side, `prune` removes every expired
      event and nothing else: it agrees with the reference filter. */
  lemma {:induction false} PruneWithoutAdjacentZeros<K>(q: seq<Scheduled<K>>)
    requires !AdjacentZeros(q)
    ensures Prune(q) == Live(q)
    decreases |q|
  {
    if |q| >= 2 {
      if q[0].frames == 0 {
        assert q[1].frames != 0;
        assert !AdjacentZeros(q[2..]) by {
          forall i | 0 <= i < |q[2..]| - 1
            ensures !(q[2..][i].frames == 0 && q[2..][i + 1].frames == 0)
          {
            assert q[2..][i] == q[i + 2] && q[2..][i + 1] == q[i + 3];
          }
        }
        PruneWithoutAdjacentZeros(q[2..]);
        assert q[1..][1..] == q[2..];
      } else {
        assert !AdjacentZeros(q[1..]) by {
          forall i | 0 <= i < |q[1..]| - 1
            ensures !(q[1..][i].frames == 0 && q[1..][i + 1].frames == 0)
          {
            assert q[1..][i] == q[i + 1] && q[1..][i + 1] == q[i + 2];
          }
        }
        PruneWithoutAdjacentZeros(q[1..]);
      }
    }
  }

  /** Two expired neighbours always leave an expired event behind: the first is
      removed and the second, shifted into its slot, is never looked at. */
  lemma {:induction false} PruneWithAdjacentZeros<K>(q: seq<Scheduled<K>>)
    requires AdjacentZeros(q)
    ensures !AllLive(Prune(q))
    decreases |q|
  {
    var i :| 0 <= i < |q| - 1 && q[i].frames == 0 && q[i + 1].frames == 0;
    if q[0].frames == 0 {
      if q[1].frames == 0 {
        assert Prune(q)[0] == q[1];
      } else {
        assert i >= 2;
        assert q[2..][i - 2] == q[i] && q[2..][i - 1] == q[i + 1];
        PruneWithAdjacentZeros(q[2..]);
        var p := Prune(q[2..]);
        var k :| 0 <= k < |p| && p[k].frames < 1;
        assert Prune(q)[k + 1] == p[k];
      }
    } else {
      assert i >= 1;
      assert q[1..][i - 1] == q[i] && q[1..][i] == q[i + 1];
      PruneWithAdjacentZeros(q[1..]);
      var p := Prune(q[1..]);
      var k :| 0 <= k < |p| && p[k].frames < 1;
      assert Prune(q)[k + 1] == p[k];
    }
  }

  /** `prune` leaves a queue on which the next `run_all` is safe exactly when
      the input held no two adjacent expired events. */
  lemma PruneLeavesLiveIff<K>(q: seq<Scheduled<K>>)
    ensures AllLive(Prune(q)) <==> !AdjacentZeros(q)
  {
    if AdjacentZeros(q) {
      PruneWithAdjacentZeros(q);
    } else {
      PruneWithoutAdjacentZeros(q);
    }
  }

  /** Without adjacent expired events, a second `prune` changes nothing. */
  lemma PruneIdempotentWithoutAdjacentZeros<K>(q: seq<Scheduled<K>>)
    requires !AdjacentZeros(q)
    ensures Prune(Prune(q)) == Prune(q)
  {
    PruneWithoutAdjacentZeros(q);
    PruneOfLiveIsIdentity(Prune(q));
  }

  /** `prune` is not idempotent: of two expired neighbours the first pass
      removes one and the second pass the other. */
  lemma PruneNotIdempotent()
    ensures var q: seq<Event> := [Scheduled("a", 0, Action(0)), Scheduled("b", 0, Action(1))];
            && Prune(q) == [q[1]]
            && Prune(Prune(q)) == []
  {
  }
}

=== FILE: events.dfy ===
/** Optional values, for lookups that may find nothing and for checked arithmetic. */
module Options {

  datatype Option<+T> = None | Some(value: T)
}

/**
 The scheduled-event record shared by the engine's two queue copies.

 The repository declares the same record twice, as `Event` and as `GameEvent`,
 with identical fields and an identical `dec`. The model declares it once as
 `Scheduled<Kind>`, where the phantom `Kind` only keeps the two Rust types
 apart, and instantiates it as `Event` here and as `GameEvent` in `TaskQueue`.
 */
module Events {
  import opened Options

  /** Rust's `u32`, the width of the frame counter. */
  newtype u32 = x: int | 0 <= x < 0x1_0000_0000

  /** A capture-less `fn()` pointer. Its body is an opaque side effect that
      cannot reach the queue, so the model keeps only the pointer's identity. */
  datatype Action = Action(id: nat)

  /** A named action that is re-run once per frame while `frames` counts down. */
  datatype Scheduled<Kind> = Scheduled(name: string, frames: u32, task: Action)

  /** Marker for the `Event` struct of the engine's event queue. */
  datatype EventKind = EventKind

  type Event = Scheduled<EventKind>

  /** `dec` is `frames -= 1` on a `u32`: it is defined only when the counter
      does not underflow, i.e. when at least one frame is left. */
  predicate CanDec<K>(e: Scheduled<K>)
  {
    e.frames >= 1
  }

  /** `dec`: one frame fewer, with the event's identity and action untouched. */
  function Dec<K>(e: Scheduled<K>): (r: Scheduled<K>)
    requires CanDec(e)
    ensures r.frames as int == e.frames as int - 1
    ensures r.name == e.name && r.task == e.task
  {
    e.(frames := e.frames - 1)
  }

  /** `dec` as a debug build executes it: the checked `u32` subtraction panics
      (`None`) exactly when the counter is already zero. */
  function DecChecked<K>(e: Scheduled<K>): (r: Option<Scheduled<K>>)
    ensures r.None? <==> e.frames == 0
    ensures r.Some? ==> r.value.frames as int == e.frames as int - 1
    ensures r.Some? ==> r.value.name == e.name && r.value.task == e.task
  {
    if e.frames as int - 1 < 0 then None else Some(e.(frames := (e.frames as int - 1) as u32))
  }

  /** The checked and the precondition-guarded `dec` agree wherever `dec` is defined. */
  lemma DecCheckedAgrees<K>(e: Scheduled<K>)
    ensures DecChecked(e).Some? <==> CanDec(e)
    ensures CanDec(e) ==> DecChecked(e) == Some(Dec(e))
  {
  }
}

=== FILE: taskqueue.dfy ===
/**
 The `GameEvent` copy of the queue (`taskqueue/task.rs` and `taskqueue/taskqueue.rs`).

 `GameEvent` and its `GameEventQueue` impl repeat `Event` and `EventQueue` field
 for field and line for line, so this module instantiates the generic record
 and queue at a second kind instead of defining them again.
 */
module TaskQueue {
  import Events
  import EventQueue

  /** Marker for the `GameEvent` struct. */
  datatype GameEventKind = GameEventKind

  type GameEvent = Events.Scheduled<GameEventKind>

  /** `GameEvent::dec`: requires a frame to be left, takes exactly one away,
      and keeps the name and the action. */
  function Dec(e: GameEvent): (r: GameEvent)
    requires e.frames >= 1
    ensures r.frames as int == e.frames as int - 1
    ensures r.name == e.name && r.task == e.task
  {
    Events.Dec(e)
  }

  /** `GameEventQueue::remove`: an absent name changes nothing; otherwise the
      first match alone is swap-removed. */
  function Remove(q: seq<GameEvent>, name: string): (r: seq<GameEvent>)
    ensures EventQueue.Absent(q, name) ==> r == q
    ensures !EventQueue.Absent(q, name) ==> |r| == |q| - 1
    ensures forall i: nat :: EventQueue.IsFirstMatch(q, name, i) ==>
              && multiset(r) + multiset{q[i]} == multiset(q)
              && (forall j :: 0 <= j < |r| && j != i ==> r[j] == q[j])
              && (i < |r| ==> r[i] == q[|q| - 1])
  {
    EventQueue.Remove(q, name)
  }

  /** `GameEventQueue::run_all`: needs every counter at one or more, and
      decrements each by one with nothing else changed. */
  function RunAll(q: seq<GameEvent>): (r: seq<GameEvent>)
    requires EventQueue.AllLive(q)
    ensures |r| == |q|
    ensures forall i :: 0 <= i < |q| ==>
              && r[i].frames as int == q[i].frames as int - 1
              && r[i].name == q[i].name
              && r[i].task == q[i].task
  {
    EventQueue.RunAll(q)
  }

  /** `GameEventQueue::prune`: keeps every live event in its original relative
      order, and leaves an expired event behind exactly when two expired
      events were neighbours. */
  function Prune(q: seq<GameEvent>): (r: seq<GameEvent>)
    ensures EventQueue.SubSeq(r, q)
    ensures EventQueue.Live(r) == EventQueue.Live(q)
    ensures EventQueue.AllLive(r) <==> !EventQueue.AdjacentZeros(q)
  {
    EventQueue.PruneKeepsLiveInOrder(q);
    EventQueue.PruneLeavesLiveIff(q);
    EventQueue.Prune(q)
  }
}
